=== FILE: README.md ===
# fdbkubernetesmonitor supervisor core, in Dafny

This project models the sequential core of `fdbkubernetesmonitor/monitor.go`,
the sidecar monitor that keeps a group of `fdbserver` subprocesses in line with
a configuration file. Its shared state is the `Monitor` record:

- `ProcessIDs`: the process registry. Slot `n` is `0` when no run loop owns it,
  `-1` when a run loop owns it but no subprocess runs, and the subprocess's PID
  otherwise.
- `ActiveConfiguration`: here reduced to version, server count and binary path.
- `LastConfigurationTime`: whole Unix seconds.

Every mutation of that state happens in a short mutex-held section. Each such
section is a pure transition here:

- `Loader.LoadConfiguration` models the validation chain and the install step.
- `RunLoop.TopOfLoop`, `RunLoop.Launch` and `RunLoop.Exited` model the three
  lock-guarded steps of `RunProcess`.
- `Watch` holds the file-event and timestamp reload triggers.
- `Shutdown.ForwardSignal` is the signal-forwarding sweep of `Run`.

Goroutine scheduling becomes an arbitrary sequence of these atomic steps.
`Supervisor.Next` takes one step of the whole monitor: the state plus its live
run loops. `SupervisorProofs.NextKeepsInv` shows that every step keeps the
registry invariant. `Reachability` draws conclusions for every state that any
interleaving from start-up reaches, among them that no slot ever has two run
loops. `Scenario.ShrinkThenGrow` walks through one concrete interleaving: two
servers, then one, then three.

Modules follow the parts of the file:

- `Registry`: the state and the growth and claim of slots.
- `Loader`: `LoadConfiguration`.
- `RunLoop`: `RunProcess`.
- `Watch`: `WatchConfiguration` and `WatchPodTimestamps`.
- `Shutdown`: the signal goroutine in `Run`.
- `Supervisor`, `SupervisorProofs`, `Reachability`: the interleaving model and
  its invariant.
- `Scenario`: the worked example.
- `Wrappers`: `Option` and `Result`.

Collaborators defined outside `monitor.go` are fields of `Loader.Env`:

- `json.Unmarshal`, `os.Stat` and `ProcessConfiguration.GenerateArguments` are
  uninterpreted functions.
- `currentContainerVersion` and `sharedBinaryDir` are constants.
- `FDBServerPath` is a `Monitor` field that `StartMonitor` sets once; since it
  is fixed at start-up, it is a constant of `Loader.Env` too.
- The outcomes of `os.Open`/`io.ReadAll`, `cmd.Start`, `cmd.Wait`,
  `os.FindProcess` and `Process.Signal`, and readings of the clock, arrive as
  step inputs.

Where the code and its comments disagree, the model follows the code:

- Backoff is a single stateless check. `RunLoop.RestartDelay` sleeps 60 s
  exactly when the last run lasted under 60 s. The comment on
  `errorBackoffSeconds` says the delay applies only after more than one failure
  in the window.
- An `io.ReadAll` error is only logged. The bytes read so far are still parsed
  (`Loader.ReadErrorDoesNotAbort`).

The code also does not retry a failed argument generation:

- A `GenerateArguments` error inside the run loop does not retry. The loop
  sleeps and then indexes `arguments[0]` of the list it did not get, and so
  does a successful call that returns an empty list. `RunLoop.Launch` returns
  `Faulted` for both, and the loop stays `Stuck` with its slot at `-1`.

## Model

| member | source | states |
|---|---|---|
| Registry.Grow | fdbkubernetesmonitor/monitor.go:143-149 | a nil registry is created with exactly serverCount+1 unowned slots; an existing one is kept as a prefix and only grows, with appended slots unowned, to max(len, serverCount+1) |
| Registry.Claim | fdbkubernetesmonitor/monitor.go:155-158 | the install loop leaves owned slots as they were, leaves no slot of 1..serverCount unowned, marks a newly owned slot -1 (idle) and never some other value, and leaves every slot outside 1..serverCount exactly as it was |
| Registry.SpawnTargetsExact | fdbkubernetesmonitor/monitor.go:155-161 | the install loop spawns a run loop for exactly the unowned slots in 1..serverCount, in increasing order, so each one once |
| Loader.ResolveBinaryPath | fdbkubernetesmonitor/monitor.go:117-121 | the binary is FDBServerPath when the version equals the container's version, and sharedBinaryDir/version/fdbserver otherwise |
| Loader.StagedVersionRoundTrip | fdbkubernetesmonitor/monitor.go:120 | for a version that is a single clean path element, the version can be recovered from its staged binary path, so the path names its version |
| Loader.DistinctVersionsDistinctBinaries | fdbkubernetesmonitor/monitor.go:117-121 | two different versions other than the container's own, each a single clean path element, resolve to different binaries |
| Loader.OwnerExecutableOnlyReadsOneBit | fdbkubernetesmonitor/monitor.go:128-131 | the executable check passes exactly on the owner-execute bit 0o100: setting it passes, clearing it fails, other bits do not matter |
| Loader.Validate | fdbkubernetesmonitor/monitor.go:100-137 | the chain open, parse, resolve, stat, execute bit, GenerateArguments(1) succeeds exactly when every gate passes; a failed open is OpenError; ParseError exactly on an unparsable document; success yields the parsed version and count with the resolved path |
| Loader.ReadErrorDoesNotAbort | fdbkubernetesmonitor/monitor.go:107-115 | a read error does not change the validation outcome: the bytes read are parsed as usual |
| Loader.LoadConfiguration | fdbkubernetesmonitor/monitor.go:99-161 | a reload is rejected exactly when validation fails, with that gate's reason and nothing installed; otherwise the validated configuration and load time are installed, the registry reaches length at least serverCount+1 and never shrinks, owned slots and slots outside 1..serverCount keep their value, every unowned slot of 1..serverCount becomes -1 and is spawned exactly once, and afterwards no slot of 1..serverCount is 0; creating a nil registry with serverCount below -1 panics |
| RunLoop.TopOfLoop | fdbkubernetesmonitor/monitor.go:174-182 | the loop terminates exactly when serverCount < processNumber, and then sets only its own slot to 0 |
| RunLoop.Launch | fdbkubernetesmonitor/monitor.go:184-224 | argument generation that fails or yields an empty list faults the loop (the `arguments[0]` index) whatever the start does; otherwise a failed start retries and writes nothing, and a successful start writes the PID into the loop's own slot and no other |
| RunLoop.RestartDelay | fdbkubernetesmonitor/monitor.go:260-264 | the restart delay is 60 s exactly when the run lasted under 60 s (in nanoseconds) and 0 s exactly otherwise |
| RunLoop.RestartDelayAntitone | fdbkubernetesmonitor/monitor.go:260-264 | a longer run never gets a longer delay |
| RunLoop.Exited | fdbkubernetesmonitor/monitor.go:244-264 | after the subprocess exits, only the loop's own slot changes, back to -1, and the delay follows the 60 s rule |
| RunLoop.ExitCodeIgnored | fdbkubernetesmonitor/monitor.go:248-264 | the exit code has no effect on the registry or the backoff |
| Shutdown.TargetsExact | fdbkubernetesmonitor/monitor.go:304-305 | the sweep visits exactly the slots whose registry entry is positive, in increasing order, each once |
| Shutdown.Targets | fdbkubernetesmonitor/monitor.go:304-305 | every slot the sweep visits is an index of the registry whose entry is a positive process identifier |
| Shutdown.Visit | fdbkubernetesmonitor/monitor.go:305-318 | at one slot, a failed lookup is recorded as such; otherwise the received signal is delivered, and delivery failure is recorded; either way the sweep goes on |
| Shutdown.ForwardSignal | fdbkubernetesmonitor/monitor.go:301-321 | the sweep records one entry per live slot, in slot order, each the visit of that slot with the received signal whatever happened at earlier slots, and releases done only after the last one |
| Watch.ReactionByBits | fdbkubernetesmonitor/monitor.go:277-285 | an event reloads exactly when it has a create, write or remove bit; it reloads directly exactly when create or write is set; it re-adds the watch first exactly for a remove without create or write |
| Watch.React | fdbkubernetesmonitor/monitor.go:277-285 | a write or create bit always reloads, even when remove is also set; an event is ignored exactly when it has none of the create, write and remove bits |
| Watch.RenameAndChmodIgnored | fdbkubernetesmonitor/monitor.go:277-285 | rename and chmod bits on their own trigger no reload |
| Watch.WatchingUntilStopped | fdbkubernetesmonitor/monitor.go:269-292 | the watcher keeps running exactly as long as no channel closed and no re-add of the watch failed; error values do not stop it |
| Watch.SingleInput | fdbkubernetesmonitor/monitor.go:271-290 | on one input, a closed channel returns and a failed re-add after a bare remove panics, both without reloading; any other input reloads exactly when it has a create, write or remove bit; with `Watch.WatchConcat` this fixes the reload count of every input sequence |
| Watch.WatchConcat | fdbkubernetesmonitor/monitor.go:269-292 | a watcher still running after some inputs handles the rest as if started afresh, and reload counts add up |
| Watch.WatchConfiguration | fdbkubernetesmonitor/monitor.go:269-292 | the watcher reloads at most once per input; it panics only after an event that needed a re-add of the watch and whose re-add failed, and returns only after some channel closed |
| Watch.TimestampTriggerAfterLoad | fdbkubernetesmonitor/monitor.go:339-345 | before any reload every timestamp after year 1 triggers one; after an accepted reload at time now exactly timestamps greater than now do; a rejected reload leaves the trigger unchanged |
| Watch.WatchPodTimestamps | fdbkubernetesmonitor/monitor.go:339-345 | running the timestamp feed never shrinks the registry and never removes an installed configuration |
| Watch.FreshTimestampReloads | fdbkubernetesmonitor/monitor.go:340-343 | a timestamp strictly newer than the last reload performs the reload, and the feed continues from the state that reload leaves |
| Watch.StaleTimestampSkipped | fdbkubernetesmonitor/monitor.go:340-344 | a timestamp no later than the last reload is skipped, and the feed continues from the same state |
| Watch.StaleTimestampsChangeNothing | fdbkubernetesmonitor/monitor.go:340-344 | a feed of timestamps no later than the last reload changes nothing |
| Supervisor.Next | fdbkubernetesmonitor/monitor.go:140-258 | one atomic step never shrinks the registry; a reload writes only unowned slots; a run-loop step writes only its own slot and never changes the configuration; a run loop disappears only through its own check once serverCount is below its slot |
| SupervisorProofs.ReloadKeepsInv | fdbkubernetesmonitor/monitor.go:140-161 | an accepted reload keeps the invariant: new run loops land on slots no live loop owns, one each |
| SupervisorProofs.CheckKeepsInv | fdbkubernetesmonitor/monitor.go:175-182 | the top-of-loop check keeps the invariant: a returning loop frees exactly its own slot |
| SupervisorProofs.LaunchKeepsInv | fdbkubernetesmonitor/monitor.go:206-224 | a launch keeps the invariant: the slot holds the positive PID of its running loop |
| SupervisorProofs.ExitKeepsInv | fdbkubernetesmonitor/monitor.go:244-258 | an exit keeps the invariant: the slot returns to -1 and stays owned |
| SupervisorProofs.NextKeepsInv | fdbkubernetesmonitor/monitor.go:140-258 | every enabled atomic step keeps the registry invariant |
| Reachability.Execute | fdbkubernetesmonitor/monitor.go:140-258 | every state reached by any sequence of enabled steps satisfies the invariant and has a registry no shorter than before |
| Reachability.AtMostOneRunLoopPerSlot | fdbkubernetesmonitor/monitor.go:155-181 | in every state reachable from start-up under any interleaving, each slot has at most one live run loop |
| Reachability.RegistryValuesMeaningful | fdbkubernetesmonitor/monitor.go:63-67 | in every state satisfying the invariant, each registry entry is 0, -1 or a positive PID, and every non-zero entry has a live run loop on its slot |
| Reachability.SweepTargetsRunningSubprocesses | fdbkubernetesmonitor/monitor.go:304-305 | the slots the shutdown sweep signals are exactly those whose run loop has recorded its subprocess's PID and not yet its exit |
| Scenario.ShrinkThenGrow | fdbkubernetesmonitor/monitor.go:143-181 | loading two servers, shrinking to one and growing to three keeps slot 1 running, releases slot 2 after its next exit and claims it again, and claims slot 3 for the first time |

## Left out

- Process execution, the stdout/stderr pipes and their scanning goroutines, and all logging are OS I/O with no effect on the shared state. A start is modelled only as "failed" or "started with PID p", and a subprocess end only as an exit with an exit code and a duration.
- Reachability.SweepTargetsRunningSubprocesses: the result holds between the PID write and the exit reset, not over the subprocess's real lifetime. `Supervisor.LaunchStep` joins `cmd.Start` (monitor.go:206) with the PID write (monitor.go:222-223), and `Supervisor.ExitStep` joins `cmd.Wait` returning (monitor.go:244) with the reset to -1 (monitor.go:256-257). In the source, a signal that arrives after the start but before the PID write is not forwarded to the new fdbserver, although the monitor still exits after `done`. A signal that arrives after the wait but before the reset is sent to the dead PID.
- RunLoop.Launch: the branch where `cmd.Process` is nil after a successful start is not modelled. In that branch the slot would receive the previous iteration's PID, or 0. `os/exec` always sets `Process` when `Start` succeeds, so `Supervisor.Enabled` also requires that started PIDs be positive.
- RunLoop.Launch: in Go, indexing `arguments[0]` of a nil or empty list panics, and the panic ends the whole process. `Faulted` and the `Stuck` phase over-approximate that: `Supervisor.Next` lets the other goroutines go on, so every later state is extra. The safety results stay sound because they hold in all of those states as well.
- Loader.StagedVersionRoundTrip: holds only for versions that are a single clean path element and for the uncleaned join. Under `path.Join`, a version such as `7.1/` comes back as `7.1`, and a directory that is not clean shifts the version's position.
- Loader.DistinctVersionsDistinctBinaries: holds only for versions that are a single clean path element. Under `path.Join`, `7.1` and `7.1/` resolve to the same binary, and so do the empty version and `.`, or `a/../b` and `b`.
- Loader.ResolveBinaryPath: `path.Join` also cleans the joined path (collapsing `//`, resolving `..`). The model joins with plain `/` separators and does not clean.
- Loader.LoadConfiguration: server counts are unbounded integers. Overflow of Go's 64-bit `int` at `ServerCount+1` is not modelled, nor are the unending append and spawn loops it would cause.
- `ActiveConfigurationBytes`, `ConfigFile` and the argument template of `ProcessConfiguration` are not modelled. `GenerateArguments` is a function of version, server count and binary path.
- Sleeping is not modelled as the passage of time. `RunLoop.RestartDelay` returns the number of seconds the loop would sleep. The 60 s sleeps after a failed start or failed argument generation leave no trace in the state.
- Unlocked reads are modelled as atomic reads of the current state: `ActiveConfiguration` in the run loop (monitor.go:184), `ProcessIDs` in the sweep (monitor.go:304) and `LastConfigurationTime` in the timestamp watcher (monitor.go:341). The sweep works on one snapshot of the registry.
- `StartMonitor` and `CreatePodClient` (monitor.go:81-96) are left out, and so are watcher creation and the panics at monitor.go:324-331. `PodClient.UpdateAnnotations` (monitor.go:163-166) is called under the lock with the monitor, but its code is not part of this model. The model assumes it changes neither the registry nor the active configuration, and that its error is only logged.
- A panic ends the process, so no later state exists. This covers a failed re-add of the watch (`Watch.WatchExit.ReAddPanicked`) and `make` with a negative length (`Loader.LoadResult.MakePanicked`, excluded by `Supervisor.Enabled`).
- The `done` channel and the main goroutine's wait on it are represented by the final `Done` entry of `Shutdown.ForwardSignal`.
- Closing the event or error channel ends the watcher (`WatchExit.ChannelClosed`). The watcher goroutine's return has no further effect.

=== FILE: loader.dfy ===
/**
  `LoadConfiguration`: the validation chain that runs without the lock, and the
  install step that runs under it. Opening, reading and parsing the file,
  stat-ing the binary and generating arguments are collaborators, given as the
  fields of `Env` and the `ConfigRead` outcome.
 */
module Loader {
  import opened Wrappers
  import opened Registry

  type Byte = bv8

  /** `os.FileMode`, a 32-bit word of mode and permission bits. */
  type FileMode = bv32

  /** The owner-execute permission bit, `0o100`. */
  const OwnerExecuteBit: FileMode := 0x40

  /** The last path element of a binary staged under the shared directory. */
  const ServerBinaryName: string := "fdbserver"

  /** What `json.Unmarshal` yields for a configuration document, restricted to the fields modelled. */
  datatype ParsedConfig = ParsedConfig(version: string, serverCount: int)

  /**
    The loader's collaborators and build-time constants: the monitor's own
    `FDBServerPath`, `currentContainerVersion`, `sharedBinaryDir`, and the
    outcomes of `json.Unmarshal`, `os.Stat` and `GenerateArguments`.
   */
  datatype Env = Env(
    fdbServerPath: string,
    currentContainerVersion: string,
    sharedBinaryDir: string,
    unmarshal: seq<Byte> -> Option<ParsedConfig>,
    stat: string -> Option<FileMode>,
    generateArguments: (Config, int) -> Option<seq<string>>)

  /**
    The outcome of `os.Open` and `io.ReadAll` on the configuration file. A read
    error still delivers whatever bytes were read.
   */
  datatype ConfigRead = OpenFailed | Opened(bytes: seq<Byte>, readFailed: bool)

  /** The validation gate a rejected reload stopped at. */
  datatype Rejection = OpenError | ParseError | StatError | NotExecutable | ArgumentsError

  /**
    A reload either stops at a gate before taking the lock, installs a new
    state and spawns run loops for the listed slots, or panics in `make`
    because a nil registry cannot be created with a negative length.
   */
  datatype LoadResult = Rejected(reason: Rejection) | Installed(monitor: Monitor, spawned: seq<int>) | MakePanicked

  /** The binary a configuration of `version` runs. */
  function ResolveBinaryPath(env: Env, version: string): (path: string)
    ensures version == env.currentContainerVersion ==> path == env.fdbServerPath
    ensures version != env.currentContainerVersion ==> path == SharedBinaryPath(env.sharedBinaryDir, version)
  {
    if env.currentContainerVersion == version then env.fdbServerPath
    else SharedBinaryPath(env.sharedBinaryDir, version)
  }

  /** `path.Join(dir, version, "fdbserver")`, without path cleaning. */
  function SharedBinaryPath(dir: string, version: string): (path: string) {
    dir + "/" + version + "/" + ServerBinaryName
  }

  /** A single clean path element, which `path.Join` leaves as it is: non-empty, no `/`, neither `.` nor `..`. */
  predicate CleanElement(v: string) {
    |v| > 0 && '/' !in v && v != "." && v != ".."
  }

  /** The version element of a path built by `SharedBinaryPath(dir, _)`. */
  function StagedVersion(dir: string, path: string): (version: string)
    requires |dir| + 1 + 1 + |ServerBinaryName| <= |path|
  {
    path[|dir| + 1 .. |path| - 1 - |ServerBinaryName|]
  }

  /** The staged binary path names its version: `StagedVersion` inverts `SharedBinaryPath`. */
  lemma StagedVersionRoundTrip(dir: string, version: string)
    requires CleanElement(version)
    ensures |dir| + 1 + 1 + |ServerBinaryName| <= |SharedBinaryPath(dir, version)|
    ensures StagedVersion(dir, SharedBinaryPath(dir, version)) == version
  {
  }

  /** Two versions other than the container's own never share a binary. */
  lemma DistinctVersionsDistinctBinaries(env: Env, v1: string, v2: string)
    requires v1 != env.currentContainerVersion && v2 != env.currentContainerVersion
    requires v1 != v2
    requires CleanElement(v1) && CleanElement(v2)
    ensures ResolveBinaryPath(env, v1) != ResolveBinaryPath(env, v2)
  {
    StagedVersionRoundTrip(env.sharedBinaryDir, v1);
    StagedVersionRoundTrip(env.sharedBinaryDir, v2);
  }

  /** The executable check on the binary's mode: `mode & 0o100 != 0`. */
  predicate OwnerExecutable(mode: FileMode) {
    mode & OwnerExecuteBit != 0
  }

  /** The executable check looks at the owner-execute bit and at no other bit. */
  lemma OwnerExecutableOnlyReadsOneBit(mode: FileMode, other: FileMode)
    requires other & OwnerExecuteBit == 0
    ensures OwnerExecutable(mode | other) == OwnerExecutable(mode)
    ensures OwnerExecutable(mode | OwnerExecuteBit)
    ensures !OwnerExecutable(mode & !OwnerExecuteBit)
  {
  }

  /**
    The validation chain, short-circuiting in source order: open, parse,
    resolve and stat the binary, require the owner-execute bit, and generate
    the arguments of process 1. Success carries the configuration to install.
   */
  function Validate(env: Env, read: ConfigRead): (r: Result<Config, Rejection>)
    ensures read.OpenFailed? ==> r == Failure(OpenError)
    ensures r == Failure(ParseError) <==> read.Opened? && env.unmarshal(read.bytes).None?
    ensures r.Success? <==>
      && read.Opened?
      && env.unmarshal(read.bytes).Some?
      && var p := env.unmarshal(read.bytes).value;
      && var path := ResolveBinaryPath(env, p.version);
      && env.stat(path).Some?
      && OwnerExecutable(env.stat(path).value)
      && env.generateArguments(Config(p.version, p.serverCount, path), 1).Some?
    ensures r.Success? ==>
      && env.unmarshal(read.bytes) == Some(ParsedConfig(r.value.version, r.value.serverCount))
      && r.value.binaryPath == ResolveBinaryPath(env, r.value.version)
  {
    match read
    case OpenFailed => Failure(OpenError)
    case Opened(bytes, _) =>
      match env.unmarshal(bytes)
      case None => Failure(ParseError)
      case Some(p) =>
        var cfg := Config(p.version, p.serverCount, ResolveBinaryPath(env, p.version));
        match env.stat(cfg.binaryPath)
        case None => Failure(StatError)
        case Some(mode) =>
          if !OwnerExecutable(mode) then Failure(NotExecutable)
          else if env.generateArguments(cfg, 1).None? then Failure(ArgumentsError)
          else Success(cfg)
  }

  /** A read error is only logged: the bytes read so far go on to be parsed. */
  lemma ReadErrorDoesNotAbort(env: Env, bytes: seq<Byte>)
    ensures Validate(env, Opened(bytes, true)) == Validate(env, Opened(bytes, false))
  {
  }

  /**
    One call of `LoadConfiguration` against the state `m`, with the file read
    as `read` and the clock reading `now` (Unix seconds).
   */
  function LoadConfiguration(env: Env, m: Monitor, read: ConfigRead, now: int): (r: LoadResult)
    // A rejected reload is exactly one whose validation fails, with the same reason.
    ensures r.Rejected? <==> Validate(env, read).Failure?
    ensures r.Rejected? ==> r.reason == Validate(env, read).error
    ensures r.MakePanicked? <==>
      Validate(env, read).Success? && m.processIds.None? && Validate(env, read).value.serverCount < -1
    // The installed configuration is the validated one, stamped with the load time.
    ensures r.Installed? ==>
      && Validate(env, read).Success?
      && r.monitor.active == Some(Validate(env, read).value)
      && r.monitor.lastConfigTime == now
      && r.monitor.processIds.Some?
    // The registry is created with serverCount + 1 slots, or grows to that length, and never shrinks.
    ensures r.Installed? ==>
      var sc := r.monitor.active.value.serverCount;
      var after := r.monitor.processIds.value;
      && |after| >= sc + 1
      && |after| >= |Slots(m)|
      && (m.processIds.None? ==> |after| == sc + 1)
      && (m.processIds.Some? ==> |after| == Max(|Slots(m)|, sc + 1))
    // Entries outside 1..serverCount, and owned entries, keep their value; new entries there are unowned.
    ensures r.Installed? ==>
      var sc := r.monitor.active.value.serverCount;
      var after := r.monitor.processIds.value;
      forall i :: 0 <= i < |after| && !(1 <= i <= sc && (i >= |Slots(m)| || Slots(m)[i] == Unowned)) ==>
        after[i] == (if i < |Slots(m)| then Slots(m)[i] else Unowned)
    // Every unowned slot of 1..serverCount becomes idle and gets exactly one run loop; no other slot gets one.
    ensures r.Installed? ==>
      var sc := r.monitor.active.value.serverCount;
      var after := r.monitor.processIds.value;
      && StrictlyIncreasing(r.spawned)
      && (forall i :: i in r.spawned <==> 1 <= i <= sc && (i >= |Slots(m)| || Slots(m)[i] == Unowned))
      && (forall i :: i in r.spawned ==> after[i] == Idle)
      && (forall i :: 1 <= i <= sc ==> after[i] != Unowned)
  {
    match Validate(env, read)
    case Failure(e) => Rejected(e)
    case Success(cfg) =>
      if m.processIds.None? && cfg.serverCount + 1 < 0 then MakePanicked
      else
        var g := Grow(m.processIds, cfg.serverCount);
        SpawnTargetsExact(g, cfg.serverCount);
        Installed(Monitor(Some(cfg), Some(Claim(g, cfg.serverCount)), now), SpawnTargets(g, cfg.serverCount))
  }

  /** The state a reload leaves behind: a rejected reload changes nothing. */
  function AfterLoad(m: Monitor, r: LoadResult): (m': Monitor)
    requires !r.MakePanicked?
    ensures r.Rejected? ==> m' == m
    ensures r.Installed? ==> m' == r.monitor
  {
    if r.Installed? then r.monitor else m
  }
}

=== FILE: proofs.dfy ===
/** The monitor's invariant holds in every state reachable by any interleaving of atomic steps. */
module SupervisorProofs {
  import opened Wrappers
  import opened Registry
  import opened Loader
  import opened RunLoop
  import opened Shutdown
  import opened Supervisor

  /** Loops that kept their slots still agree with a registry that only changed unowned slots; new loops sit on idle slots. */
  lemma ReloadLoopsAgree(ids: seq<int>, ids': seq<int>, loops: seq<Loop>, spawned: seq<int>)
    requires LoopsAgree(ids, loops)
    requires |ids'| >= |ids|
    requires forall n :: 0 <= n < |ids| && ids[n] != Unowned ==> ids'[n] == ids[n]
    requires forall x :: x in spawned ==> 1 <= x < |ids'| && ids'[x] == Idle
    ensures LoopsAgree(ids', loops + Spawn(spawned))
  {
    var all := loops + Spawn(spawned);
    forall k | 0 <= k < |all|
      ensures 1 <= all[k].slot < |ids'| && PhaseAgrees(all[k].phase, ids'[all[k].slot])
    {
      if k < |loops| {
        assert all[k] == loops[k];
      } else {
        assert all[k] == Loop(spawned[k - |loops|], AtCheck);
        assert spawned[k - |loops|] in spawned;
      }
    }
  }

  /** Loops spawned once each for unowned slots share no slot with each other or with a live loop. */
  lemma ReloadDistinct(ids: seq<int>, loops: seq<Loop>, spawned: seq<int>)
    requires LoopsAgree(ids, loops) && DistinctSlots(loops)
    requires StrictlyIncreasing(spawned)
    requires forall x :: x in spawned ==> 0 <= x && (x >= |ids| || ids[x] == Unowned)
    ensures DistinctSlots(loops + Spawn(spawned))
  {
  }

  /** After a reload every owned slot either was owned before or was just spawned. */
  lemma ReloadOwned(ids: seq<int>, ids': seq<int>, loops: seq<Loop>, spawned: seq<int>)
    requires OwnedHaveLoops(ids, loops)
    requires forall n :: 0 <= n < |ids'| && ids'[n] != Unowned ==> (n < |ids| && ids[n] != Unowned) || n in spawned
    ensures OwnedHaveLoops(ids', loops + Spawn(spawned))
  {
    var all := loops + Spawn(spawned);
    forall n | 0 <= n < |ids'| && ids'[n] != Unowned
      ensures n in Owners(all)
    {
      if n < |ids| && ids[n] != Unowned {
        assert n in Owners(loops);
        var k :| 0 <= k < |loops| && Owners(loops)[k] == n;
        assert Owners(all)[k] == n;
      } else {
        var k :| 0 <= k < |spawned| && spawned[k] == n;
        assert Owners(all)[|loops| + k] == n;
      }
    }
  }

  /** A reload keeps the invariant: claimed slots were unowned, so their new loops share no slot with a live one. */
  lemma ReloadKeepsInv(env: Env, s: System, read: ConfigRead, now: int)
    requires Inv(s) && Enabled(env, s, ReloadStep(read, now))
    ensures Inv(Next(env, s, ReloadStep(read, now)))
  {
    var r := LoadConfiguration(env, s.monitor, read, now);
    if r.Installed? {
      var ids := Slots(s.monitor);
      var ids' := Slots(r.monitor);
      var sc := r.monitor.active.value.serverCount;
      assert Next(env, s, ReloadStep(read, now)) == System(r.monitor, s.loops + Spawn(r.spawned));
      forall n | 0 <= n < |ids| && ids[n] != Unowned
        ensures ids'[n] == ids[n]
      {
      }
      ReloadLoopsAgree(ids, ids', s.loops, r.spawned);
      ReloadDistinct(ids, s.loops, r.spawned);
      forall n | 0 <= n < |ids'| && ids'[n] != Unowned
        ensures (n < |ids| && ids[n] != Unowned) || n in r.spawned
      {
      }
      ReloadOwned(ids, ids', s.loops, r.spawned);
    }
  }

  /** Removing the loop at `i` from loops with distinct slots removes exactly its slot from the owners. */
  lemma RemoveLoopOwners(loops: seq<Loop>, i: nat, n: int)
    requires i < |loops|
    requires n in Owners(loops) && n != loops[i].slot
    ensures n in Owners(loops[..i] + loops[i + 1..])
  {
    var rest := loops[..i] + loops[i + 1..];
    var k :| 0 <= k < |loops| && Owners(loops)[k] == n;
    if k < i {
      assert rest[k] == loops[k];
      assert Owners(rest)[k] == n;
    } else {
      assert rest[k - 1] == loops[k];
      assert Owners(rest)[k - 1] == n;
    }
  }

  /** The top-of-loop check keeps the invariant: a loop that returns released its own slot. */
  lemma CheckKeepsInv(env: Env, s: System, i: nat)
    requires Inv(s) && Enabled(env, s, CheckStep(i))
    ensures Inv(Next(env, s, CheckStep(i)))
  {
    LoopImpliesActive(s, i);
    var ids := Slots(s.monitor);
    var slot := s.loops[i].slot;
    if s.monitor.active.value.serverCount < slot {
      var rest := s.loops[..i] + s.loops[i + 1..];
      var ids' := ids[slot := Unowned];
      assert Next(env, s, CheckStep(i)) == System(s.monitor.(processIds := Some(ids')), rest);
      assert forall k :: 0 <= k < |rest| ==> rest[k] == s.loops[if k < i then k else k + 1];
      forall n | 0 <= n < |ids'| && ids'[n] != Unowned
        ensures n in Owners(rest)
      {
        RemoveLoopOwners(s.loops, i, n);
      }
    } else {
      var s' := s.(loops := s.loops[i := s.loops[i].(phase := Launching)]);
      assert Next(env, s, CheckStep(i)) == s';
      assert Owners(s'.loops) == Owners(s.loops);
    }
  }

  /** A launch keeps the invariant: only the launching loop's slot changes, to a positive PID. */
  lemma LaunchKeepsInv(env: Env, s: System, i: nat, start: StartOutcome)
    requires Inv(s) && Enabled(env, s, LaunchStep(i, start))
    ensures Inv(Next(env, s, LaunchStep(i, start)))
  {
    LoopImpliesActive(s, i);
    var s' := Next(env, s, LaunchStep(i, start));
    assert Owners(s'.loops) == Owners(s.loops);
  }

  /** An exit keeps the invariant: the exiting loop's slot becomes idle and stays owned. */
  lemma ExitKeepsInv(env: Env, s: System, i: nat, exitCode: int, durationNanos: int)
    requires Inv(s) && Enabled(env, s, ExitStep(i, exitCode, durationNanos))
    ensures Inv(Next(env, s, ExitStep(i, exitCode, durationNanos)))
  {
    LoopImpliesActive(s, i);
    var s' := Next(env, s, ExitStep(i, exitCode, durationNanos));
    assert Owners(s'.loops) == Owners(s.loops);
  }

  /** Every enabled step keeps the invariant. */
  lemma NextKeepsInv(env: Env, s: System, step: Step)
    requires Inv(s) && Enabled(env, s, step)
    ensures Inv(Next(env, s, step))
  {
    match step
    case ReloadStep(read, now) => ReloadKeepsInv(env, s, read, now);
    case CheckStep(i) => CheckKeepsInv(env, s, i);
    case LaunchStep(i, start) => LaunchKeepsInv(env, s, i, start);
    case ExitStep(i, exitCode, durationNanos) => ExitKeepsInv(env, s, i, exitCode, durationNanos);
  }
}

/** Consequences of the invariant for every reachable state. */
module Reachability {
  import opened Wrappers
  import opened Registry
  import opened Loader
  import opened Shutdown
  import opened Supervisor
  import opened SupervisorProofs

  /** Runs `steps` from `s` in order; `None` when some step is not enabled where it is taken. */
  function Execute(env: Env, s: System, steps: seq<Step>): (r: Option<System>)
    requires Inv(s)
    ensures r.Some? ==> Inv(r.value)
    ensures r.Some? ==> |Slots(r.value.monitor)| >= |Slots(s.monitor)|
    decreases |steps|
  {
    if |steps| == 0 then Some(s)
    else if !Enabled(env, s, steps[0]) then None
    else
      NextKeepsInv(env, s, steps[0]);
      Execute(env, Next(env, s, steps[0]), steps[1..])
  }

  /** Loops with pairwise distinct slots hold each slot at most once. */
  lemma {:induction false} DistinctOwnersOnce(loops: seq<Loop>)
    requires DistinctSlots(loops)
    ensures forall n :: multiset(Owners(loops))[n] <= 1
  {
    if |loops| > 0 {
      var tail := loops[1..];
      assert DistinctSlots(tail) by {
        forall j, k | 0 <= j < k < |tail|
          ensures tail[j].slot != tail[k].slot
        {
          assert tail[j] == loops[j + 1] && tail[k] == loops[k + 1];
        }
      }
      DistinctOwnersOnce(tail);
      assert Owners(loops) == [loops[0].slot] + Owners(tail);
      assert loops[0].slot !in Owners(tail);
    }
  }

  /** In every state reachable from start-up by any interleaving of steps, no slot has two run loops. */
  lemma AtMostOneRunLoopPerSlot(env: Env, steps: seq<Step>)
    requires Execute(env, Boot, steps).Some?
    ensures forall n :: multiset(Owners(Execute(env, Boot, steps).value.loops))[n] <= 1
  {
    DistinctOwnersOnce(Execute(env, Boot, steps).value.loops);
  }

  /** Under the invariant every registry entry has one of its three meanings, and non-zero ones have a loop. */
  lemma RegistryValuesMeaningful(s: System)
    requires Inv(s)
    ensures forall n :: 0 <= n < |Slots(s.monitor)| ==>
      Slots(s.monitor)[n] == Unowned || Slots(s.monitor)[n] == Idle || Slots(s.monitor)[n] > 0
    ensures forall n :: 0 <= n < |Slots(s.monitor)| && Slots(s.monitor)[n] != Unowned ==> n in Owners(s.loops)
  {
  }

  /** The shutdown sweep visits exactly the slots whose run loop has a subprocess running. */
  lemma SweepTargetsRunningSubprocesses(s: System)
    requires Inv(s)
    ensures forall n :: n in Targets(Slots(s.monitor)) <==>
      exists k :: 0 <= k < |s.loops| && s.loops[k].slot == n && s.loops[k].phase.Running?
  {
    var ids := Slots(s.monitor);
    TargetsExact(ids);
    forall n | n in Targets(ids)
      ensures exists k :: 0 <= k < |s.loops| && s.loops[k].slot == n && s.loops[k].phase.Running?
    {
      var k :| 0 <= k < |s.loops| && Owners(s.loops)[k] == n;
      assert PhaseAgrees(s.loops[k].phase, ids[n]);
    }
  }
}

=== FILE: registry.dfy ===
/**
  The shared state of the monitor: the process-identifier registry, the active
  configuration and the time of the last successful reload, together with the
  pure pieces of the install step that grow the registry and claim its free
  slots.

  Each registry entry is one of three things: `Unowned` (0, no run loop owns the
  slot), `Idle` (-1, a run loop owns the slot but no subprocess runs) or a
  positive process identifier (the subprocess that the owning run loop started).
 */
module Registry {
  import opened Wrappers

  /** Registry value of a slot no run loop owns. */
  const Unowned: int := 0

  /** Registry value of a slot whose run loop has no subprocess running. */
  const Idle: int := -1

  /** `time.Time{}.Unix()`: the last reload time before any reload succeeded. */
  const ZeroTimeUnix: int := -62135596800

  /** An installed configuration: the fields of `ProcessConfiguration` the monitor consults. */
  datatype Config = Config(version: string, serverCount: int, binaryPath: string)

  /**
    The lock-guarded part of `Monitor`. `processIds` is `None` while the Go slice
    is nil, which is different from an empty, non-nil slice.
   */
  datatype Monitor = Monitor(active: Option<Config>, processIds: Option<seq<int>>, lastConfigTime: int)

  /** The monitor as `StartMonitor` creates it, before the first reload. */
  const Initial: Monitor := Monitor(None, None, ZeroTimeUnix)

  /** The registry as a sequence; a nil slice ranges over nothing. */
  function Slots(m: Monitor): (ids: seq<int>) {
    m.processIds.GetOr([])
  }

  function Max(a: int, b: int): (r: int) {
    if a < b then b else a
  }

  /** `make([]int, n)`. */
  function Zeros(n: nat): (z: seq<int>)
    ensures |z| == n
    ensures forall i :: 0 <= i < n ==> z[i] == Unowned
  {
    seq(n, _ => Unowned)
  }

  /**
    Registry growth in the install step: a nil registry is created with
    `serverCount + 1` unowned slots; an existing one has unowned slots appended
    until its length exceeds `serverCount`. Creation needs a non-negative length
    (Go's `make` panics otherwise).
   */
  function Grow(ids: Option<seq<int>>, serverCount: int): (g: seq<int>)
    requires ids.Some? || serverCount + 1 >= 0
    ensures |g| >= serverCount + 1
    ensures ids.None? ==> |g| == serverCount + 1
    ensures ids.Some? ==> |g| == Max(|ids.value|, serverCount + 1)
    ensures ids.Some? ==> g[..|ids.value|] == ids.value
    ensures forall i :: |ids.GetOr([])| <= i < |g| ==> g[i] == Unowned
  {
    match ids
    case None => Zeros(serverCount + 1)
    case Some(s) => if |s| <= serverCount then s + Zeros(serverCount + 1 - |s|) else s
  }

  /** The registry after the install step's loop: slots `1..serverCount` that were unowned become idle. */
  function Claim(g: seq<int>, serverCount: int): (c: seq<int>)
    ensures |c| == |g|
    ensures forall i :: 0 <= i < |g| && g[i] != Unowned ==> c[i] == g[i]
    ensures forall i :: 1 <= i <= serverCount && i < |g| ==> c[i] != Unowned
    ensures forall i :: 0 <= i < |g| && c[i] == Unowned ==> g[i] == Unowned && !(1 <= i <= serverCount)
    ensures forall i :: 0 <= i < |g| && g[i] == Unowned && c[i] != Unowned ==> c[i] == Idle
    ensures forall i :: 0 <= i < |g| && !(1 <= i <= serverCount) ==> c[i] == g[i]
  {
    seq(|g|, i requires 0 <= i < |g| => if 1 <= i <= serverCount && g[i] == Unowned then Idle else g[i])
  }

  /** The slots from `n` to `serverCount`, in increasing order, whose entry is unowned. */
  function SpawnFrom(g: seq<int>, n: nat, serverCount: int): (slots: seq<int>)
    requires serverCount < |g|
    decreases |g| - n
  {
    if serverCount < n then []
    else (if g[n] == Unowned then [n] else []) + SpawnFrom(g, n + 1, serverCount)
  }

  /** The slots the install step spawns a run loop for, in the order it spawns them. */
  function SpawnTargets(g: seq<int>, serverCount: int): (slots: seq<int>)
    requires serverCount < |g|
  {
    SpawnFrom(g, 1, serverCount)
  }

  /** Every element is smaller than the ones after it, so none occurs twice. */
  predicate StrictlyIncreasing(s: seq<int>) {
    forall i, j :: 0 <= i < j < |s| ==> s[i] < s[j]
  }

  /** `SpawnFrom` lists exactly the unowned slots of `n..serverCount`, each once. */
  lemma {:induction false} SpawnFromExact(g: seq<int>, n: nat, serverCount: int)
    requires serverCount < |g|
    ensures forall x :: x in SpawnFrom(g, n, serverCount) <==> n <= x <= serverCount && g[x] == Unowned
    ensures StrictlyIncreasing(SpawnFrom(g, n, serverCount))
    decreases |g| - n
  {
    if n <= serverCount {
      var rest := SpawnFrom(g, n + 1, serverCount);
      SpawnFromExact(g, n + 1, serverCount);
      if g[n] == Unowned {
        forall k | 0 <= k < |rest|
          ensures n < rest[k]
        {
          assert rest[k] in rest;
        }
        assert SpawnFrom(g, n, serverCount) == [n] + rest;
      }
    }
  }

  /** The install step spawns one run loop for each unowned slot of `1..serverCount`, and no other. */
  lemma SpawnTargetsExact(g: seq<int>, serverCount: int)
    requires serverCount < |g|
    ensures forall x :: x in SpawnTargets(g, serverCount) <==> 1 <= x <= serverCount && g[x] == Unowned
    ensures StrictlyIncreasing(SpawnTargets(g, serverCount))
  {
    SpawnFromExact(g, 1, serverCount);
  }
}

=== FILE: runloop.dfy ===
/**
  The lock-guarded steps of `RunProcess`, the run loop that owns one slot of the
  registry, and its backoff decision. Starting and waiting for the subprocess
  are collaborators: their outcomes arrive as step inputs.
 */
module RunLoop {
  import opened Wrappers
  import opened Registry

  /** Seconds slept before a restart after a short run or a failed start. */
  const ErrorBackoffSeconds: int := 60

  const NanosPerSecond: int := 1_000_000_000

  /** The outcome of `cmd.Start()`: a failure, or the process identifier of the started subprocess. */
  datatype StartOutcome = StartFailed | Started(pid: int)

  /** The top-of-loop check: the loop either releases its slot and returns, or goes on. */
  datatype CheckOutcome = Terminate(ids: seq<int>) | Proceed

  /**
    The launch phase: argument generation failed or gave an empty list (the
    loop then indexes `arguments[0]`, which panics), the start failed (retry
    after backoff), or the subprocess runs under `pid`.
   */
  datatype LaunchOutcome = Faulted | Retry | Launched(ids: seq<int>, pid: int)

  /**
    The check under the lock at the top of every iteration: once the active
    configuration no longer covers `n`, the slot is released and the loop
    returns; otherwise nothing changes.
   */
  function TopOfLoop(cfg: Config, ids: seq<int>, n: int): (r: CheckOutcome)
    requires 0 <= n < |ids|
    ensures r.Terminate? <==> cfg.serverCount < n
    ensures r.Terminate? ==> |r.ids| == |ids| && r.ids[n] == Unowned
    ensures r.Terminate? ==> forall i :: 0 <= i < |ids| && i != n ==> r.ids[i] == ids[i]
  {
    if cfg.serverCount < n then Terminate(ids[n := Unowned]) else Proceed
  }

  /**
    Argument generation for slot `n` from the current configuration, then
    `cmd.Start()`. Only a successful start writes the registry, and only slot
    `n`, to the new process identifier.
   */
  function Launch(arguments: Option<seq<string>>, start: StartOutcome, ids: seq<int>, n: int): (r: LaunchOutcome)
    requires 0 <= n < |ids|
    ensures r.Faulted? <==> arguments.None? || |arguments.value| == 0
    ensures r.Retry? <==> arguments.Some? && |arguments.value| > 0 && start.StartFailed?
    ensures r.Launched? ==> start.Started? && r.pid == start.pid
    ensures r.Launched? ==> |r.ids| == |ids| && r.ids[n] == start.pid
    ensures r.Launched? ==> forall i :: 0 <= i < |ids| && i != n ==> r.ids[i] == ids[i]
  {
    if arguments.None? || |arguments.value| == 0 then Faulted
    else
      match start
      case StartFailed => Retry
      case Started(pid) => Launched(ids[n := pid], pid)
  }

  /**
    Seconds to sleep before the next iteration after a subprocess ran for
    `durationNanos`: the full backoff when it ran for less than
    `ErrorBackoffSeconds`, none otherwise.
   */
  function RestartDelay(durationNanos: int): (delay: int)
    ensures delay == ErrorBackoffSeconds <==> durationNanos < ErrorBackoffSeconds * NanosPerSecond
    ensures delay == 0 <==> durationNanos >= ErrorBackoffSeconds * NanosPerSecond
  {
    if durationNanos < ErrorBackoffSeconds * NanosPerSecond then ErrorBackoffSeconds else 0
  }

  /** A run that lasted longer is never made to wait longer. */
  lemma RestartDelayAntitone(d1: int, d2: int)
    requires d1 <= d2
    ensures RestartDelay(d2) <= RestartDelay(d1)
  {
  }

  /** The registry after a subprocess exit, and the seconds the loop sleeps before its next check. */
  datatype ExitOutcome = ExitOutcome(ids: seq<int>, delaySeconds: int)

  /**
    After `cmd.Wait()`: slot `n` goes back to idle, and the loop sleeps for
    `RestartDelay(durationNanos)` seconds. The exit code is only logged.
   */
  function Exited(ids: seq<int>, n: int, exitCode: int, durationNanos: int): (r: ExitOutcome)
    requires 0 <= n < |ids|
    ensures |r.ids| == |ids| && r.ids[n] == Idle
    ensures forall i :: 0 <= i < |ids| && i != n ==> r.ids[i] == ids[i]
    ensures r.delaySeconds == ErrorBackoffSeconds <==> durationNanos < ErrorBackoffSeconds * NanosPerSecond
    ensures r.delaySeconds == 0 <==> durationNanos >= ErrorBackoffSeconds * NanosPerSecond
  {
    ExitOutcome(ids[n := Idle], RestartDelay(durationNanos))
  }

  /** Neither the registry update nor the backoff after an exit depends on the exit code. */
  lemma ExitCodeIgnored(ids: seq<int>, n: int, c1: int, c2: int, durationNanos: int)
    requires 0 <= n < |ids|
    ensures Exited(ids, n, c1, durationNanos) == Exited(ids, n, c2, durationNanos)
  {
  }
}

=== FILE: scenario.dfy ===
/**
  A worked interleaving: two servers start, the count shrinks to one, and then
  grows to three. Slot 1 keeps running throughout; slot 2 is released and later
  claimed afresh; slot 3 is claimed for the first time.
 */
module Scenario {
  import opened Wrappers
  import opened Registry
  import opened Loader
  import opened RunLoop
  import opened Supervisor
  import opened Reachability

  /** A configuration document whose server count is its length in bytes, for the container's own version. */
  const ScenarioEnv: Env := Env(
    "/usr/bin/fdbserver",
    "7.1.0",
    "/var/fdb/shared-binaries",
    (bytes: seq<Byte>) => Some(ParsedConfig("7.1.0", |bytes|)),
    (path: string) => Some(0x1ED), // 0o755
    (cfg: Config, n: int) => Some([cfg.binaryPath]))

  function Document(serverCount: nat): (read: ConfigRead) {
    Opened(seq(serverCount, _ => 0), false)
  }

  function Cfg(serverCount: int): (cfg: Config) {
    Config("7.1.0", serverCount, "/usr/bin/fdbserver")
  }

  const S0: System := Boot
  const S1: System := System(Monitor(Some(Cfg(2)), Some([0, -1, -1]), 100), [Loop(1, AtCheck), Loop(2, AtCheck)])
  const S2: System := S1.(loops := [Loop(1, Launching), Loop(2, AtCheck)])
  const S3: System := System(S1.monitor.(processIds := Some([0, 11, -1])), [Loop(1, Running(11)), Loop(2, AtCheck)])
  const S4: System := S3.(loops := [Loop(1, Running(11)), Loop(2, Launching)])
  const S5: System := System(S1.monitor.(processIds := Some([0, 11, 12])), [Loop(1, Running(11)), Loop(2, Running(12))])
  const S6: System := S5.(monitor := Monitor(Some(Cfg(1)), Some([0, 11, 12]), 200))
  const S7: System := System(S6.monitor.(processIds := Some([0, 11, -1])), [Loop(1, Running(11)), Loop(2, AtCheck)])
  const S8: System := System(S6.monitor.(processIds := Some([0, 11, 0])), [Loop(1, Running(11))])
  const S9: System := System(
    Monitor(Some(Cfg(3)), Some([0, 11, -1, -1]), 300),
    [Loop(1, Running(11)), Loop(2, AtCheck), Loop(3, AtCheck)])

  const St0: Step := ReloadStep(Document(2), 100)
  const St1: Step := CheckStep(0)
  const St2: Step := LaunchStep(0, Started(11))
  const St3: Step := CheckStep(1)
  const St4: Step := LaunchStep(1, Started(12))
  const St5: Step := ReloadStep(Document(1), 200)
  const St6: Step := ExitStep(1, 0, 5_000_000_000)
  const St7: Step := CheckStep(1)
  const St8: Step := ReloadStep(Document(3), 300)

  const ScenarioSteps: seq<Step> := [St0, St1, St2, St3, St4, St5, St6, St7, St8]

  /** Taking `step` from `s` is allowed and leads to `s'`. */
  predicate Goes(s: System, step: Step, s': System) {
    Inv(s) && Enabled(ScenarioEnv, s, step) && Next(ScenarioEnv, s, step) == s'
  }

  /** The invariant holds in each state of the scenario, one state at a time. */
  lemma InvS0()
    ensures Inv(S0)
  {
  }

  lemma InvS1()
    ensures Inv(S1)
  {
    assert Owners(S1.loops) == [1, 2];
  }

  lemma InvS2()
    ensures Inv(S2)
  {
    assert Owners(S2.loops) == [1, 2];
  }

  lemma InvS3()
    ensures Inv(S3)
  {
    assert Owners(S3.loops) == [1, 2];
  }

  lemma InvS4()
    ensures Inv(S4)
  {
    assert Owners(S4.loops) == [1, 2];
  }

  lemma InvS5()
    ensures Inv(S5)
  {
    assert Owners(S5.loops) == [1, 2];
  }

  lemma InvS6()
    ensures Inv(S6)
  {
    assert Owners(S6.loops) == [1, 2];
  }

  lemma InvS7()
    ensures Inv(S7)
  {
    assert Owners(S7.loops) == [1, 2];
  }

  lemma InvS8()
    ensures Inv(S8)
  {
    assert Owners(S8.loops) == [1];
  }

  lemma InvS9()
    ensures Inv(S9)
  {
    assert Owners(S9.loops) == [1, 2, 3];
  }

  lemma ScenarioInv()
    ensures Inv(S0) && Inv(S1) && Inv(S2) && Inv(S3) && Inv(S4)
    ensures Inv(S5) && Inv(S6) && Inv(S7) && Inv(S8) && Inv(S9)
  {
    InvS0(); InvS1(); InvS2(); InvS3(); InvS4();
    InvS5(); InvS6(); InvS7(); InvS8(); InvS9();
  }

  /** The first load of two servers claims slots 1 and 2. */
  lemma FirstLoad()
    ensures Goes(S0, St0, S1)
  {
    ScenarioInv();
    var g := Grow(None, 2);
    assert g == [0, 0, 0];
    assert Claim(g, 2) == [0, -1, -1];
    assert SpawnTargets(g, 2) == [1, 2];
  }

  /** Slot 1 starts a subprocess. */
  lemma FirstStarts()
    ensures Goes(S1, St1, S2)
    ensures Goes(S2, St2, S3)
  {
    ScenarioInv();
    assert [0, -1, -1][1 := 11] == [0, 11, -1];
  }

  /** Slot 2 starts a subprocess. */
  lemma SecondStarts()
    ensures Goes(S3, St3, S4)
    ensures Goes(S4, St4, S5)
  {
    ScenarioInv();
    assert [0, 11, -1][2 := 12] == [0, 11, 12];
  }

  /** Shrinking to one server changes no slot. */
  lemma Shrink()
    ensures Goes(S5, St5, S6)
  {
    ScenarioInv();
    var g := Grow(Some([0, 11, 12]), 1);
    assert g == [0, 11, 12];
    assert Claim(g, 1) == [0, 11, 12];
    assert SpawnTargets(g, 1) == [];
    assert S5.loops + Spawn([]) == S5.loops;
  }

  /** Slot 2's subprocess exits after five seconds, and its loop then finds itself no longer wanted. */
  lemma SecondReleased()
    ensures Goes(S6, St6, S7)
    ensures Goes(S7, St7, S8)
  {
    ScenarioInv();
    assert [0, 11, 12][2 := -1] == [0, 11, -1];
    assert [0, 11, -1][2 := 0] == [0, 11, 0];
    assert S7.loops[..1] + S7.loops[2..] == [Loop(1, Running(11))];
  }

  /** Growing to three servers claims slot 2 afresh and slot 3 for the first time. */
  lemma Grow3()
    ensures Goes(S8, St8, S9)
  {
    ScenarioInv();
    var g := Grow(Some([0, 11, 0]), 3);
    assert g == [0, 11, 0, 0];
    assert Claim(g, 3) == [0, 11, -1, -1];
    assert SpawnTargets(g, 3) == [2, 3];
  }

  /** One step of `Execute` from a state that `Goes` to the next. */
  lemma ExecuteCons(s: System, step: Step, rest: seq<Step>, s': System)
    requires Goes(s, step, s') && Inv(s')
    ensures Execute(ScenarioEnv, s, [step] + rest) == Execute(ScenarioEnv, s', rest)
  {
  }

  /** The scenario from state `k` onwards ends in `S9`. */
  lemma Suffix8()
    ensures Inv(S8) && Execute(ScenarioEnv, S8, ScenarioSteps[8..]) == Some(S9)
  {
    InvS9();
    Grow3();
    ExecuteCons(S8, St8, [], S9);
    assert ScenarioSteps[8..] == [St8] + [];
  }

  lemma Suffix7()
    ensures Inv(S7) && Execute(ScenarioEnv, S7, ScenarioSteps[7..]) == Some(S9)
  {
    InvS7();
    InvS8();
    SecondReleased();
    ExecuteCons(S7, St7, ScenarioSteps[8..], S8);
    assert ScenarioSteps[7..] == [St7] + ScenarioSteps[8..];
    Suffix8();
  }

  lemma Suffix6()
    ensures Inv(S6) && Execute(ScenarioEnv, S6, ScenarioSteps[6..]) == Some(S9)
  {
    InvS6();
    InvS7();
    SecondReleased();
    ExecuteCons(S6, St6, ScenarioSteps[7..], S7);
    assert ScenarioSteps[6..] == [St6] + ScenarioSteps[7..];
    Suffix7();
  }

  lemma Suffix5()
    ensures Inv(S5) && Execute(ScenarioEnv, S5, ScenarioSteps[5..]) == Some(S9)
  {
    InvS5();
    InvS6();
    Shrink();
    ExecuteCons(S5, St5, ScenarioSteps[6..], S6);
    assert ScenarioSteps[5..] == [St5] + ScenarioSteps[6..];
    Suffix6();
  }

  lemma Suffix4()
    ensures Inv(S4) && Execute(ScenarioEnv, S4, ScenarioSteps[4..]) == Some(S9)
  {
    InvS4();
    InvS5();
    SecondStarts();
    ExecuteCons(S4, St4, ScenarioSteps[5..], S5);
    assert ScenarioSteps[4..] == [St4] + ScenarioSteps[5..];
    Suffix5();
  }

  lemma Suffix3()
    ensures Inv(S3) && Execute(ScenarioEnv, S3, ScenarioSteps[3..]) == Some(S9)
  {
    InvS3();
    InvS4();
    SecondStarts();
    ExecuteCons(S3, St3, ScenarioSteps[4..], S4);
    assert ScenarioSteps[3..] == [St3] + ScenarioSteps[4..];
    Suffix4();
  }

  lemma Suffix2()
    ensures Inv(S2) && Execute(ScenarioEnv, S2, ScenarioSteps[2..]) == Some(S9)
  {
    InvS2();
    InvS3();
    FirstStarts();
    ExecuteCons(S2, St2, ScenarioSteps[3..], S3);
    assert ScenarioSteps[2..] == [St2] + ScenarioSteps[3..];
    Suffix3();
  }

  lemma Suffix1()
    ensures Inv(S1) && Execute(ScenarioEnv, S1, ScenarioSteps[1..]) == Some(S9)
  {
    InvS1();
    InvS2();
    FirstStarts();
    ExecuteCons(S1, St1, ScenarioSteps[2..], S2);
    assert ScenarioSteps[1..] == [St1] + ScenarioSteps[2..];
    Suffix2();
  }

  lemma Suffix0()
    ensures Inv(S0) && Execute(ScenarioEnv, S0, ScenarioSteps[0..]) == Some(S9)
  {
    InvS0();
    InvS1();
    FirstLoad();
    ExecuteCons(S0, St0, ScenarioSteps[1..], S1);
    assert ScenarioSteps[0..] == [St0] + ScenarioSteps[1..];
    Suffix1();
  }

  /** The registry ends as `[0, 11, -1, -1]`, with slot 1 still running and fresh loops for slots 2 and 3. */
  lemma ShrinkThenGrow()
    ensures Execute(ScenarioEnv, Boot, ScenarioSteps) == Some(S9)
  {
    Suffix0();
    assert ScenarioSteps[0..] == ScenarioSteps;
  }
}

=== FILE: shutdown.dfy ===
/**
  The signal-forwarding sweep of `Run`: on SIGINT or SIGTERM, every slot whose
  registry entry is a process identifier is sent the same signal, and the main
  loop is released only after the last slot. Finding the process and delivering
  the signal are collaborators whose outcomes are given as functions of the
  process identifier.
 */
module Shutdown {
  import opened Registry

  /** The host signals the monitor intercepts. */
  datatype Signal = SigInt | SigTerm

  /** One line of the sweep's record: what happened at one slot, and the final release of `done`. */
  datatype SweepEntry =
    | Signalled(slot: int, pid: int, sig: Signal)
    | FindFailed(slot: int, pid: int)
    | SignalFailed(slot: int, pid: int, sig: Signal)
    | Done

  /** The slots below `k` whose entry is a process identifier, in increasing order. */
  function TargetsBelow(ids: seq<int>, k: nat): (t: seq<int>)
    requires k <= |ids|
    ensures forall j :: 0 <= j < |t| ==> 0 <= t[j] < k
  {
    if k == 0 then []
    else TargetsBelow(ids, k - 1) + (if ids[k - 1] > 0 then [k - 1] else [])
  }

  /** The slots the sweep signals, in the order it visits them. */
  function Targets(ids: seq<int>): (t: seq<int>)
    ensures forall j :: 0 <= j < |t| ==> 0 <= t[j] < |ids|
    ensures forall j :: 0 <= j < |t| ==> ids[t[j]] > 0
  {
    TargetsBelowExact(ids, |ids|);
    TargetsBelow(ids, |ids|)
  }

  /** `TargetsBelow` lists exactly the live slots below `k`, each once. */
  lemma {:induction false} TargetsBelowExact(ids: seq<int>, k: nat)
    requires k <= |ids|
    ensures forall n :: n in TargetsBelow(ids, k) <==> 0 <= n < k && ids[n] > 0
    ensures StrictlyIncreasing(TargetsBelow(ids, k))
  {
    if k > 0 {
      var prefix := TargetsBelow(ids, k - 1);
      TargetsBelowExact(ids, k - 1);
      forall j | 0 <= j < |prefix|
        ensures prefix[j] < k - 1
      {
        assert prefix[j] in prefix;
      }
    }
  }

  /** The sweep signals exactly the slots holding a process identifier, each once. */
  lemma TargetsExact(ids: seq<int>)
    ensures forall n :: n in Targets(ids) <==> 0 <= n < |ids| && ids[n] > 0
    ensures StrictlyIncreasing(Targets(ids))
  {
    TargetsBelowExact(ids, |ids|);
  }

  /** What the sweep does at `slot`: find the process, then deliver the signal; a failure only skips this slot. */
  function Visit(slot: int, pid: int, sig: Signal, find: int -> bool, deliver: (int, Signal) -> bool): (e: SweepEntry)
    ensures !e.Done? && e.slot == slot && e.pid == pid
    ensures e.FindFailed? <==> !find(pid)
    ensures e.SignalFailed? <==> find(pid) && !deliver(pid, sig)
    ensures e.Signalled? <==> find(pid) && deliver(pid, sig)
    ensures !e.FindFailed? ==> e.sig == sig
  {
    if !find(pid) then FindFailed(slot, pid)
    else if !deliver(pid, sig) then SignalFailed(slot, pid, sig)
    else Signalled(slot, pid, sig)
  }

  /**
    The sweep over the registry snapshot `ids` after receiving `sig`: one entry
    per live slot, in slot order, whatever earlier slots' outcomes were, and
    `Done` last.
   */
  method ForwardSignal(ids: seq<int>, sig: Signal, find: int -> bool, deliver: (int, Signal) -> bool)
    returns (log: seq<SweepEntry>)
    ensures |log| == |Targets(ids)| + 1
    ensures log[|log| - 1] == Done
    ensures forall k :: 0 <= k < |log| - 1 ==>
      log[k] == Visit(Targets(ids)[k], ids[Targets(ids)[k]], sig, find, deliver)
  {
    log := [];
    var processNumber := 0;
    while processNumber < |ids|
      invariant processNumber <= |ids|
      invariant |log| == |TargetsBelow(ids, processNumber)|
      invariant forall k :: 0 <= k < |log| ==>
        log[k] == Visit(TargetsBelow(ids, processNumber)[k], ids[TargetsBelow(ids, processNumber)[k]], sig, find, deliver)
    {
      var processId := ids[processNumber];
      ghost var before := TargetsBelow(ids, processNumber);
      if processId > 0 {
        log := log + [Visit(processNumber, processId, sig, find, deliver)];
        assert TargetsBelow(ids, processNumber + 1) == before + [processNumber];
      } else {
        assert TargetsBelow(ids, processNumber + 1) == before;
      }
      processNumber := processNumber + 1;
    }
    log := log + [Done];
  }
}

=== FILE: supervisor.dfy ===
/**
  The monitor as a whole: the shared state plus the run loops alive in it, and
  the lock-guarded steps those loops and the loader take in any interleaving.
  Goroutine scheduling is abstracted as an arbitrary sequence of atomic steps.
 */
module Supervisor {
  import opened Wrappers
  import opened Registry
  import opened Loader
  import opened RunLoop
  import opened Shutdown

  /** Where a run loop stands: at its top-of-loop check, about to start a subprocess, waiting for `pid`, or stuck after argument generation failed. */
  datatype Phase = AtCheck | Launching | Running(pid: int) | Stuck

  /** A live `RunProcess` goroutine and the slot it was spawned for. */
  datatype Loop = Loop(slot: int, phase: Phase)

  datatype System = System(monitor: Monitor, loops: seq<Loop>)

  /**
    The atomic steps: a reload (its validation touches nothing shared, so the
    whole call is one step), a run loop's top-of-loop check, its launch, and
    its subprocess's exit.
   */
  datatype Step =
    | ReloadStep(read: ConfigRead, now: int)
    | CheckStep(i: nat)
    | LaunchStep(i: nat, start: StartOutcome)
    | ExitStep(i: nat, exitCode: int, durationNanos: int)

  /** The process at start-up: no configuration, a nil registry, no run loops. */
  const Boot: System := System(Initial, [])

  /** The slots of the live run loops, one entry per loop. */
  function Owners(loops: seq<Loop>): (o: seq<int>)
    ensures |o| == |loops|
    ensures forall k :: 0 <= k < |loops| ==> o[k] == loops[k].slot
  {
    seq(|loops|, k requires 0 <= k < |loops| => loops[k].slot)
  }

  /** New run loops for the slots a reload claimed. */
  function Spawn(slots: seq<int>): (loops: seq<Loop>)
    ensures |loops| == |slots|
    ensures forall k :: 0 <= k < |slots| ==> loops[k] == Loop(slots[k], AtCheck)
  {
    seq(|slots|, k requires 0 <= k < |slots| => Loop(slots[k], AtCheck))
  }

  /** The registry entry a loop's phase implies for its slot. */
  predicate PhaseAgrees(p: Phase, v: int) {
    match p
    case Running(pid) => v == pid && pid > 0
    case _ => v == Idle
  }

  /** Every loop's slot lies in `1..|ids|-1` and holds the value its phase implies. */
  predicate LoopsAgree(ids: seq<int>, loops: seq<Loop>) {
    forall k :: 0 <= k < |loops| ==> 1 <= loops[k].slot < |ids| && PhaseAgrees(loops[k].phase, ids[loops[k].slot])
  }

  /** No two live loops share a slot. */
  predicate DistinctSlots(loops: seq<Loop>) {
    forall j, k :: 0 <= j < k < |loops| ==> loops[j].slot != loops[k].slot
  }

  /** Every owned slot has a live loop. */
  predicate OwnedHaveLoops(ids: seq<int>, loops: seq<Loop>) {
    forall n :: 0 <= n < |ids| && ids[n] != Unowned ==> n in Owners(loops)
  }

  /** The registry exists exactly when a configuration is active, and then covers and owns its slots `1..serverCount`. */
  predicate Covered(m: Monitor) {
    && (m.processIds.Some? <==> m.active.Some?)
    && (m.active.Some? ==>
          && |Slots(m)| >= m.active.value.serverCount + 1
          && forall n :: 1 <= n <= m.active.value.serverCount ==> Slots(m)[n] != Unowned)
  }

  /**
    The monitor's invariant: the registry covers the active configuration,
    every loop's slot holds the value its phase implies, no two loops share a
    slot, and every owned slot has a loop.
   */
  predicate Inv(s: System) {
    && Covered(s.monitor)
    && LoopsAgree(Slots(s.monitor), s.loops)
    && DistinctSlots(s.loops)
    && OwnedHaveLoops(Slots(s.monitor), s.loops)
  }

  /** Whether `step` can be taken: the loop it names exists and is in the right phase, the OS gave a positive PID, and a reload does not panic. */
  predicate Enabled(env: Env, s: System, step: Step) {
    match step
    case ReloadStep(read, now) => !LoadConfiguration(env, s.monitor, read, now).MakePanicked?
    case CheckStep(i) => i < |s.loops| && s.loops[i].phase.AtCheck?
    case LaunchStep(i, start) => i < |s.loops| && s.loops[i].phase.Launching? && (start.Started? ==> start.pid > 0)
    case ExitStep(i, _, _) => i < |s.loops| && s.loops[i].phase.Running?
  }

  /** Under the invariant a live loop's slot is in the registry, so a configuration is active. */
  lemma LoopImpliesActive(s: System, i: nat)
    requires Inv(s) && i < |s.loops|
    ensures s.monitor.processIds.Some? && s.monitor.active.Some?
    ensures s.loops[i].slot < |s.monitor.processIds.value|
  {
  }

  /**
    One atomic step. Only a reload writes unowned slots; every other step writes
    only the slot of the loop taking it. The registry never shrinks.
   */
  function Next(env: Env, s: System, step: Step): (s': System)
    requires Inv(s) && Enabled(env, s, step)
    ensures |Slots(s'.monitor)| >= |Slots(s.monitor)|
    ensures forall n :: 0 <= n < |Slots(s.monitor)| && Slots(s'.monitor)[n] != Slots(s.monitor)[n] ==>
      if step.ReloadStep? then Slots(s.monitor)[n] == Unowned else n == s.loops[step.i].slot
    ensures !step.ReloadStep? ==> s'.monitor.active == s.monitor.active
    // A run loop goes away only through its own top-of-loop check, once the configuration no longer covers its slot.
    ensures |s'.loops| < |s.loops| ==>
      && step.CheckStep?
      && s.monitor.active.Some?
      && s.monitor.active.value.serverCount < s.loops[step.i].slot
  {
    var m := s.monitor;
    var ids := Slots(m);
    match step
    case ReloadStep(read, now) =>
      var r := LoadConfiguration(env, m, read, now);
      if r.Installed? then System(r.monitor, s.loops + Spawn(r.spawned)) else s
    case CheckStep(i) =>
      LoopImpliesActive(s, i);
      var l := s.loops[i];
      (match TopOfLoop(m.active.value, ids, l.slot)
       case Terminate(ids') => System(m.(processIds := Some(ids')), s.loops[..i] + s.loops[i + 1..])
       case Proceed => s.(loops := s.loops[i := l.(phase := Launching)]))
    case LaunchStep(i, start) =>
      LoopImpliesActive(s, i);
      var l := s.loops[i];
      (match Launch(env.generateArguments(m.active.value, l.slot), start, ids, l.slot)
       case Faulted => s.(loops := s.loops[i := l.(phase := Stuck)])
       case Retry => s.(loops := s.loops[i := l.(phase := AtCheck)])
       case Launched(ids', pid) => System(m.(processIds := Some(ids')), s.loops[i := l.(phase := Running(pid))]))
    case ExitStep(i, exitCode, durationNanos) =>
      LoopImpliesActive(s, i);
      var l := s.loops[i];
      System(m.(processIds := Some(Exited(ids, l.slot, exitCode, durationNanos).ids)), s.loops[i := l.(phase := AtCheck)])
  }
}

=== FILE: watch.dfy ===
/**
  The two reload triggers: `WatchConfiguration`, which maps file-system events
  on the configuration file to reloads, and `WatchPodTimestamps`, which reloads
  when the pod's timestamp feed reports a time after the last reload.
 */
module Watch {
  import opened Wrappers
  import opened Registry
  import opened Loader

  /** `fsnotify.Op`, a bit set of event kinds. */
  type Op = bv32

  const Create: Op := 1
  const Write: Op := 2
  const Remove: Op := 4
  const Rename: Op := 8
  const Chmod: Op := 16

  /** The watcher's response to one event. */
  datatype Reaction = Reload | ReAddWatchThenReload | NoReload

  /** Write or create reloads; otherwise remove re-adds the watch and reloads; anything else is ignored. */
  function React(op: Op): (r: Reaction)
    ensures op & Write != 0 ==> r == Reload
    ensures op & Create != 0 ==> r == Reload
    ensures r == NoReload <==> op & (Create | Write | Remove) == 0
  {
    if op & Write == Write || op & Create == Create then Reload
    else if op & Remove == Remove then ReAddWatchThenReload
    else NoReload
  }

  /** An event reloads exactly when it has a write, create or remove bit; it re-adds the watch only for a bare remove. */
  lemma ReactionByBits(op: Op)
    ensures React(op) != NoReload <==> op & (Create | Write | Remove) != 0
    ensures React(op) == Reload <==> op & (Create | Write) != 0
    ensures React(op) == ReAddWatchThenReload <==> op & Remove != 0 && op & (Create | Write) == 0
  {
  }

  /** Renames and attribute changes alone never reload. */
  lemma RenameAndChmodIgnored(op: Op)
    requires op & (Create | Write | Remove) == 0
    ensures React(op | Rename | Chmod) == NoReload
  {
  }

  /** What the watcher receives: an event (with the outcome of re-adding the watch, should it need to), an error, or a channel closing. */
  datatype WatchInput = FsEvent(op: Op, reAddOk: bool) | FsError | EventsClosed | ErrorsClosed

  /** How the watcher loop stands after its inputs: returned on a closed channel, panicked on a failed re-add, or still waiting. */
  datatype WatchExit = ChannelClosed | ReAddPanicked | Watching

  /** The reloads the watcher triggered, and how its loop ended. */
  datatype WatchTrace = WatchTrace(reloads: nat, exit: WatchExit)

  /** Whether an input ends the watcher loop. */
  predicate Stops(x: WatchInput) {
    x.EventsClosed? || x.ErrorsClosed? || (x.FsEvent? && React(x.op) == ReAddWatchThenReload && !x.reAddOk)
  }

  /** The watcher loop over a stream of inputs. Errors are logged and the loop goes on. */
  function WatchConfiguration(inputs: seq<WatchInput>): (t: WatchTrace)
    ensures t.reloads <= |inputs|
    ensures t.exit == ReAddPanicked ==> exists k :: 0 <= k < |inputs| && inputs[k].FsEvent? && Stops(inputs[k])
    ensures t.exit == ChannelClosed ==> exists k :: 0 <= k < |inputs| && (inputs[k].EventsClosed? || inputs[k].ErrorsClosed?)
  {
    if |inputs| == 0 then WatchTrace(0, Watching)
    else
      match inputs[0]
      case EventsClosed => WatchTrace(0, ChannelClosed)
      case ErrorsClosed => WatchTrace(0, ChannelClosed)
      case FsError => WatchConfiguration(inputs[1..])
      case FsEvent(op, reAddOk) =>
        match React(op)
        case NoReload => WatchConfiguration(inputs[1..])
        case Reload =>
          var rest := WatchConfiguration(inputs[1..]);
          rest.(reloads := rest.reloads + 1)
        case ReAddWatchThenReload =>
          if !reAddOk then WatchTrace(0, ReAddPanicked)
          else
            var rest := WatchConfiguration(inputs[1..]);
            rest.(reloads := rest.reloads + 1)
  }

  /** The watcher keeps running exactly as long as no input closed a channel or failed to re-add the watch. */
  lemma {:induction false} WatchingUntilStopped(inputs: seq<WatchInput>)
    ensures WatchConfiguration(inputs).exit == Watching <==> forall k :: 0 <= k < |inputs| ==> !Stops(inputs[k])
  {
    if |inputs| > 0 {
      WatchingUntilStopped(inputs[1..]);
      assert forall k :: 1 <= k < |inputs| ==> inputs[k] == inputs[1..][k - 1];
    }
  }

  /** One input alone: a stopping input ends the watcher without a reload; otherwise the watcher reloads exactly when `React` asks for it. */
  lemma SingleInput(x: WatchInput)
    ensures WatchConfiguration([x]) ==
      if Stops(x) then WatchTrace(0, if x.FsEvent? then ReAddPanicked else ChannelClosed)
      else WatchTrace(if x.FsEvent? && React(x.op) != NoReload then 1 else 0, Watching)
  {
    assert [x][1..] == [];
  }

  /** A watcher still running after `a` continues on `b` as if started afresh; the reloads add up. */
  lemma {:induction false} WatchConcat(a: seq<WatchInput>, b: seq<WatchInput>)
    requires WatchConfiguration(a).exit == Watching
    ensures WatchConfiguration(a + b) ==
      WatchTrace(WatchConfiguration(a).reloads + WatchConfiguration(b).reloads, WatchConfiguration(b).exit)
  {
    if |a| > 0 {
      assert (a + b)[0] == a[0];
      assert (a + b)[1..] == a[1..] + b;
      WatchConcat(a[1..], b);
    } else {
      assert a + b == b;
    }
  }

  /** The timestamp trigger: a reload when the feed reports a time strictly after the last successful reload. */
  predicate TimestampTriggersReload(timestamp: int, m: Monitor) {
    timestamp > m.lastConfigTime
  }

  /**
    Before any reload succeeded every timestamp after year 1 triggers one; after
    an accepted reload at `now` exactly the later timestamps do; a rejected
    reload leaves the trigger as it was.
   */
  lemma TimestampTriggerAfterLoad(env: Env, m: Monitor, read: ConfigRead, now: int, timestamp: int)
    ensures timestamp > ZeroTimeUnix ==> TimestampTriggersReload(timestamp, Initial)
    ensures LoadConfiguration(env, m, read, now).Installed? ==>
      (TimestampTriggersReload(timestamp, LoadConfiguration(env, m, read, now).monitor) <==> timestamp > now)
    ensures LoadConfiguration(env, m, read, now).Rejected? ==>
      (TimestampTriggersReload(timestamp, AfterLoad(m, LoadConfiguration(env, m, read, now))) <==>
       TimestampTriggersReload(timestamp, m))
  {
  }

  /** One value from the pod's timestamp feed, with the file contents and clock a reload it triggers would see. */
  datatype Tick = Tick(timestamp: int, read: ConfigRead, now: int)

  /**
    The `WatchPodTimestamps` loop run on its own: each fresh timestamp reloads.
    `None` when a reload panicked. The registry only ever grows.
   */
  function WatchPodTimestamps(env: Env, m: Monitor, feed: seq<Tick>): (r: Option<Monitor>)
    ensures r.Some? ==> |Slots(r.value)| >= |Slots(m)|
    ensures r.Some? && m.active.Some? ==> r.value.active.Some?
    decreases |feed|
  {
    if |feed| == 0 then Some(m)
    else if !TimestampTriggersReload(feed[0].timestamp, m) then WatchPodTimestamps(env, m, feed[1..])
    else
      var r := LoadConfiguration(env, m, feed[0].read, feed[0].now);
      if r.MakePanicked? then None else WatchPodTimestamps(env, AfterLoad(m, r), feed[1..])
  }

  /** A timestamp newer than the last reload performs the reload, and the feed goes on from the state it leaves. */
  lemma FreshTimestampReloads(env: Env, m: Monitor, t: Tick, rest: seq<Tick>)
    requires t.timestamp > m.lastConfigTime
    requires !LoadConfiguration(env, m, t.read, t.now).MakePanicked?
    ensures WatchPodTimestamps(env, m, [t] + rest) ==
      WatchPodTimestamps(env, AfterLoad(m, LoadConfiguration(env, m, t.read, t.now)), rest)
  {
    assert ([t] + rest)[1..] == rest;
  }

  /** A timestamp no later than the last reload is skipped, and the feed goes on from the same state. */
  lemma StaleTimestampSkipped(env: Env, m: Monitor, t: Tick, rest: seq<Tick>)
    requires t.timestamp <= m.lastConfigTime
    ensures WatchPodTimestamps(env, m, [t] + rest) == WatchPodTimestamps(env, m, rest)
  {
    assert ([t] + rest)[1..] == rest;
  }

  /** Timestamps no later than the last reload trigger nothing. */
  lemma {:induction false} StaleTimestampsChangeNothing(env: Env, m: Monitor, feed: seq<Tick>)
    requires forall k :: 0 <= k < |feed| ==> feed[k].timestamp <= m.lastConfigTime
    ensures WatchPodTimestamps(env, m, feed) == Some(m)
  {
    if |feed| > 0 {
      StaleTimestampsChangeNothing(env, m, feed[1..]);
    }
  }
}

=== FILE: wrappers.dfy ===
/** Option and Result types shared by the monitor model. */
module Wrappers {

  /** A value that may be absent: Go's nil pointer or nil slice. */
  datatype Option<+T> = None | Some(value: T) {

    /** The wrapped value, or `default` when absent. */
    function GetOr(default: T): T {
      match this
      case Some(v) => v
      case None => default
    }
  }

  /** The outcome of a step that either produces a value or fails with an error. */
  datatype Result<+T, +E> = Success(value: T) | Failure(error: E)
}
